=== FILE: README.md ===
# SuperBroker session and navigation state machine

A Dafny model of the top-level `App` component of SuperBroker, a
single-page dashboard for real-estate brokers. The component owns four
pieces of state:

- the active tab, a string that starts as `"home"`;
- the user, who may be null and starts as the demo broker with 2500 credits;
- the list of campaigns, which starts empty;
- the ad-creation context, which starts absent.

Small handlers change that state: a credit update, a counter-campaign
hand-off, campaign creation, logout, and three kinds of navigation. The
view shown is chosen by comparing the tab with twelve tab ids. The layout
and every page that takes a user receive the "effective user": the current
user, or the demo broker when nobody is signed in. The home, dashboard,
integrations, market-spy and chat pages get no user.

Files:

- `types.dfy` (module `Types`): the records from `types.ts` that the
  state holds. These are `User`, `Campaign`, `CompetitorAnalysis`,
  `AdCreationContext` and, inside the context, `Property`.
- `session.dfy` (module `Session`): the state as a value, `Step` (one
  handler call) and `Run` (a sequence of calls). It also holds the lemmas
  about one call and about whole runs. `StepFrom` is a call made through a
  handler whose closure saw an older state.
- `dispatch.dfy` (module `Dispatch`): `Render`, which maps a state to the
  layout's props and the pages shown. It also holds the lemmas about the
  tab-to-page dispatch and about which handlers the shown page hands out.
- `app.dfy` (module `AppComponent`): class `App`. Its fields are the
  component's four state hooks, and it has one method per handler. Each
  method states its new state field by field and is proved to agree with
  `Session.Step`.

The code does not do several things one might expect of this component:

- Creating a campaign does not debit its budget from the balance.
- Creating a campaign does not clear the ad-creation context and does not
  navigate home.
- Logout does not reset the tab.
- There is no login, no session restore and no local-storage persistence
  anywhere in `App.tsx`.
- The ad creator is never given the ad-creation context. The counter-campaign
  handler stores the context, but nothing in `App.tsx` reads it
  (`Dispatch.RenderIgnoresContext`).

## Model

| member | source | states |
|---|---|---|
| `Session.MockBrokerUserShape` | App.tsx:18-29 | The demo broker has id `"u1"`, the broker role, 2500 credits, trust score 75 at level `Prata` and referral code `"ROBERTO10"` |
| `Session.EffectiveUser` | App.tsx:71 | `user \|\| MOCK_BROKER_USER`: the current user when there is one, the demo broker when the user is null |
| `Session.Step` | App.tsx:56-79 | One handler call. Each handler touches only its own part of the state: the user only through a credit update or logout, the list only through creation, the context only through a counter-campaign request, and the tab is the navigating call's target (`Target`) or unchanged. The `*Step` lemmas below state each handler's full effect |
| `Session.Run` | App.tsx:56-79 | A sequence of handler calls, each seeing the state the previous one left (React has re-rendered in between). A run never brings a user back, and the list grows by one per creation. The `*AfterRun` lemmas below state the rest |
| `Session.StepFrom` | App.tsx:56-79 | A handler call whose closure saw the state `seen`. A call whose closure saw the current state (React re-rendered since the previous call) is exactly `Step`; handlers other than the credit update and campaign creation read no state and are `Step` for any `seen`. The `Stale…` lemmas state the rest |
| `Session.Initial` | App.tsx:51-54 | At mount the tab is `"home"`, the user is the demo broker with 2500 credits, there are no campaigns and there is no context |
| `Session.AdjustCredits` | App.tsx:56-59 | The user is absent afterwards exactly when it was absent before; otherwise the balance is the old balance plus `amount` and every other user field is unchanged |
| `Session.UpdateCreditsWithoutUser` | App.tsx:56-57 | With no user, a credit update leaves the whole state unchanged |
| `Session.UpdateCreditsWithUser` | App.tsx:58 | With a user, a credit update adds `amount` to the balance and changes no other user field and no other part of the state |
| `Session.OverdraftFromInitial` | App.tsx:56-59 | There is no lower bound: taking 3000 from the initial 2500 leaves -500 |
| `Session.CounterCampaignStep` | App.tsx:61-64 | The context becomes exactly the analysis with no pre-selected property, whatever it was before; the tab becomes `"superads"`; user and campaigns are unchanged |
| `Session.CampaignCreatedStep` | App.tsx:79 | The new campaign is first, the list grows by one, the old campaigns follow in their old order; user, tab and context are unchanged |
| `Session.LogoutStep` | App.tsx:70-71 | Logout makes the user null, so the effective user is the demo broker; tab, campaigns and context are unchanged |
| `Session.NavigationSteps` | App.tsx:69-79 | Boost always yields `"superads"`, cancel always yields `"home"`, and a tab change accepts any string; nothing else changes |
| `Session.UserAfterRun` | App.tsx:56-70 | After any run, the user is null if it was null or the run logs out; otherwise it is the same user with the balance moved by the sum of the run's credit deltas |
| `Session.CreditsAddUp` | App.tsx:56-59 | With a user and no logout, a run of calls adds exactly the sum of its credit deltas and keeps every other user field |
| `Session.LoggedOutForever` | App.tsx:56-71 | After a logout, no later run brings a user back, so every later view is shown the demo broker |
| `Session.CampaignsNewestFirst` | App.tsx:79 | After any run, the campaign list is the run's new campaigns, newest first, in front of the earlier list |
| `Session.ContextAfterRun` | App.tsx:54-64 | After any run, the context comes from the run's last counter-campaign request, or is the old context if there was none; nothing clears it |
| `Session.TabAfterRun` | App.tsx:61-79 | After any run, the tab is the target of the last navigating call, or the old tab if there was none |
| `Session.CreateCampaignFromInitial` | App.tsx:51-79 | From start-up, creating a campaign, whatever its budget, keeps the balance at 2500 and leaves a list of just that campaign |
| `Session.StaleCreditUpdateRevivesUser` | App.tsx:56-58 | A credit update whose closure saw the state before a logout brings the logged-out user back, with the balance it saw plus `amount` and its other fields. This covers a handler kept from an earlier render, and a credit update in the same event as the logout |
| `Session.StaleCreditUpdateLosesNewer` | App.tsx:56-58 | A credit update whose closure saw an older state discards the credit updates made since: the balance is the one it saw plus the new amount. Of two credit updates in one event only the second is kept |
| `Session.StaleCampaignCreatedDropsNewer` | App.tsx:79 | A campaign created through a closure that saw an older list drops the campaigns created since: the list is the new campaign in front of the list it saw, and does not grow. Of two campaigns created in one event only the second is kept |
| `Dispatch.Render` | App.tsx:66-84 | The layout gets the active tab and the effective user; the pages are the twelve conditional lines in order, and `RenderSelectsOnePage` states which one is shown |
| `Dispatch.Offers` | App.tsx:73-80 | The handlers a page is given: boost on home, credit updates on financial, creation and cancel on the ad creator, counter-campaign on the market spy. A page only ever offers handlers that belong to its own tab (`HandlerTab`) |
| `Dispatch.TabIdsDistinct` | App.tsx:73-84 | The twelve tab ids are pairwise distinct, and every page is guarded by one of them |
| `Dispatch.RenderIsSelected` | App.tsx:73-84 | The twelve independent `activeTab === id && <Page/>` lines render exactly the page that a single if-else chain over the ids selects, with the props each line passes |
| `Dispatch.SelectedByTabId` | App.tsx:73-84 | A page is selected exactly when the tab is one of the twelve ids, and the selected page belongs to that id |
| `Dispatch.SelectedPassesSessionData` | App.tsx:74-83 | The selected page, if it takes a user, gets the effective user; the dashboard gets the campaign list |
| `Dispatch.RenderSelectsOnePage` | App.tsx:73-84 | Exactly one page is rendered when the tab is one of the twelve ids and none otherwise; the page rendered belongs to the active tab |
| `Dispatch.RenderPassesSessionData` | App.tsx:67-83 | The layout gets the active tab and the effective user; every page that takes a user gets the effective user; the dashboard gets the campaign list |
| `Dispatch.LoggedOutShowsMockBroker` | App.tsx:70-83 | With no user, the layout and every page that takes a user see the demo broker |
| `Dispatch.RenderIgnoresContext` | App.tsx:73-84 | What is rendered does not depend on the ad-creation context |
| `Dispatch.OfferedOnlyOnItsTab` | App.tsx:67-84 | The screen rendered for a state hands out a page's handler exactly when that page's tab is active: credits on `"financial"`, counter-campaign on `"spy"`, create and cancel on `"superads"`, boost on `"home"`; tab change and logout it always hands out |
| `Dispatch.UnmountedPageStillPays` | App.tsx:56-79 | A credit update kept by the financial page still moves the balance after the user cancels back home, although the home screen no longer hands one out |
| `AppComponent.App.constructor` | App.tsx:51-54 | The fields start as the initial state |
| `AppComponent.App.UpdateCredits` | App.tsx:56-59 | No-op without a user; otherwise the balance moves by `amount` and all other fields and user fields stay; agrees with `Step` |
| `AppComponent.App.CounterCampaign` | App.tsx:61-64 | The context becomes exactly the analysis and the tab becomes `"superads"`; user and campaigns stay; agrees with `Step` |
| `AppComponent.App.CampaignCreated` | App.tsx:79 | Prepends the campaign and keeps the old order; user, tab and context stay; agrees with `Step` |
| `AppComponent.App.Logout` | App.tsx:70 | The user becomes null and nothing else changes; agrees with `Step` |
| `AppComponent.App.TabChange` | App.tsx:69 | The tab becomes the given string and nothing else changes; agrees with `Step` |
| `AppComponent.App.Boost` | App.tsx:73 | The tab becomes `"superads"` and nothing else changes; agrees with `Step` |
| `AppComponent.App.Cancel` | App.tsx:79 | The tab becomes `"home"` and nothing else changes; agrees with `Step` |
| `AppComponent.App.ShownUser` | App.tsx:71 | The user handed to the views is the current user when there is one and the demo broker otherwise, the same user `Render` gives the layout |
| `AppComponent.LogoutThenCounterCampaign` | App.tsx:56-71 | Driving the object: after logout a credit update is ignored, and a counter-campaign opens the ad creator holding exactly the analysis, with the demo broker shown |

## Left out

- The layout and the twelve page components: their code is not part of this model. Each page is reduced to a tag, the state it is handed and the handlers it is given.
- The mock property catalogue passed to the pages is not modelled at all.
- Fields that hold fractional numbers: `conversionRate` (the one field of the mock user the model lacks), `openRate`, `responseRate` and `price`. Credits, amounts and budgets, and every other `number` field (`spent`, `impressions`, `clicks`, `leads`, `audienceSize`, `trustScore`, `partnerEarnings`, `bedrooms`, `bathrooms`, `area`), are modelled as unbounded integers. So JavaScript's floating-point rounding of very large or fractional values is not captured. The model computes only on credits.
- React's scheduling of updates. Each handler closes over the state of the render that created it. `Run` and the lemmas about it (`Session.UserAfterRun`, `Session.CreditsAddUp`, `Session.LoggedOutForever`, `Session.CampaignsNewestFirst`) assume that each call sees the state the previous call left, i.e. React has re-rendered between any two calls (`StepFrom(s, s, e)`). They do not cover a call whose closure saw an older state. That happens with a handler kept from an earlier render, and with the second of two calls a page makes in one event before React re-renders. Such a call can bring a logged-out user back, lose credit updates or drop campaigns. `StepFrom` models one such call, and the `Stale…` lemmas show these effects, including two calls in one event. No lemma covers runs that mix such calls.
- `Dispatch.OfferedOnlyOnItsTab` speaks only of the handlers the current render hands out. A handler kept by a page that is no longer shown can still be called after its tab is left, as `Dispatch.UnmountedPageStillPays` shows for a delayed payment.
- Login, session restore and local-storage persistence. None of them exists in `App.tsx`, so there is nothing to model.
- The optional `Property` fields `period`, `isPremium`, `isDraft` and `integrations`, and its fractional `price`. No behaviour depends on them: the only context the model builds has no pre-selected property.
- The remaining records in `types.ts` (leads, contracts, transactions, flow nodes and others). No code in `App.tsx` uses them.

=== FILE: app.dfy ===
/**
 * The `App` component as an object (App.tsx:50-87): its four state hooks
 * are fields, and each handler is a method that replaces some of them, one
 * event at a time. Every method is proved to perform exactly the
 * transition `Session.Step` describes. Each method call sees the state the
 * previous call left, as a handler does when React has re-rendered between
 * two calls, so the lemmas proved there about runs of events hold of any
 * sequence of calls on this object.
 */
module AppComponent {
  import opened Types
  import opened Session
  import Dispatch

  class App {
    var activeTab: string
    var user: Option<User>
    var campaigns: seq<Campaign>
    var adCreationContext: Option<AdCreationContext>

    /** The component state as a value. */
    function Snapshot(): State
      reads this
    {
      State(activeTab, user, campaigns, adCreationContext)
    }

    /** Mounting: the initial value of each state hook. */
    constructor ()
      ensures activeTab == HomeTab && user == Some(MockBrokerUser)
      ensures user.value.credits == 2500
      ensures campaigns == [] && adCreationContext == None
      ensures Snapshot() == Initial()
    {
      activeTab := HomeTab;
      user := Some(MockBrokerUser);
      campaigns := [];
      adCreationContext := None;
    }

    /**
     * `handleUpdateCredits(amount)`: without a user nothing happens; with
     * one, the user is replaced by a copy whose balance is moved by
     * `amount`, with no lower bound.
     */
    method UpdateCredits(amount: int)
      modifies this
      ensures old(user).None? ==> user == None
      ensures old(user).Some? ==> user.Some? && user.value.credits == old(user).value.credits + amount
      ensures old(user).Some? ==> SameProfile(user.value, old(user).value)
      ensures activeTab == old(activeTab) && campaigns == old(campaigns)
      ensures adCreationContext == old(adCreationContext)
      ensures Snapshot() == Step(old(Snapshot()), Event.UpdateCredits(amount))
    {
      if user.None? {
        return;
      }
      user := Some(user.value.(credits := user.value.credits + amount));
    }

    /**
     * `handleCounterCampaign(analysis)`: the context becomes one holding just
     * the analysis, whatever was there before, and the ad creator opens.
     */
    method CounterCampaign(analysis: CompetitorAnalysis)
      modifies this
      ensures adCreationContext == Some(AdCreationContext(None, Some(analysis)))
      ensures activeTab == AdCreatorTab
      ensures user == old(user) && campaigns == old(campaigns)
      ensures Snapshot() == Step(old(Snapshot()), Event.CounterCampaign(analysis))
    {
      adCreationContext := Some(AdCreationContext(None, Some(analysis)));
      activeTab := AdCreatorTab;
    }

    /**
     * `onCampaignCreated(c)`: the new campaign goes in front of the older
     * ones. The balance, the tab and the context are left alone.
     */
    method CampaignCreated(c: Campaign)
      modifies this
      ensures |campaigns| == |old(campaigns)| + 1
      ensures campaigns[0] == c && campaigns[1..] == old(campaigns)
      ensures user == old(user) && activeTab == old(activeTab)
      ensures adCreationContext == old(adCreationContext)
      ensures Snapshot() == Step(old(Snapshot()), Event.CampaignCreated(c))
    {
      campaigns := [c] + campaigns;
    }

    /** `onLogout`: the user becomes null; nothing else changes. */
    method Logout()
      modifies this
      ensures user == None
      ensures activeTab == old(activeTab) && campaigns == old(campaigns)
      ensures adCreationContext == old(adCreationContext)
      ensures Snapshot() == Step(old(Snapshot()), Event.Logout)
    {
      user := None;
    }

    /** `onTabChange(tab)`: any string is accepted as the new tab. */
    method TabChange(tab: string)
      modifies this
      ensures activeTab == tab
      ensures user == old(user) && campaigns == old(campaigns)
      ensures adCreationContext == old(adCreationContext)
      ensures Snapshot() == Step(old(Snapshot()), Event.TabChange(tab))
    {
      activeTab := tab;
    }

    /** `onBoost` on the home page: open the ad creator. */
    method Boost()
      modifies this
      ensures activeTab == AdCreatorTab
      ensures user == old(user) && campaigns == old(campaigns)
      ensures adCreationContext == old(adCreationContext)
      ensures Snapshot() == Step(old(Snapshot()), Event.Boost)
    {
      activeTab := AdCreatorTab;
    }

    /** `onCancel` in the ad creator: go back home. */
    method Cancel()
      modifies this
      ensures activeTab == HomeTab
      ensures user == old(user) && campaigns == old(campaigns)
      ensures adCreationContext == old(adCreationContext)
      ensures Snapshot() == Step(old(Snapshot()), Event.Cancel)
    {
      activeTab := HomeTab;
    }

    /**
     * The user handed to the layout and to the pages: the current user, or
     * the demo broker when there is none.
     */
    method ShownUser() returns (u: User)
      ensures user.Some? ==> u == user.value
      ensures user.None? ==> u == MockBrokerUser
      ensures u == Dispatch.Render(Snapshot()).user
    {
      Dispatch.RenderPassesSessionData(Snapshot());
      u := EffectiveUser(user);
    }
  }

  /**
   * A session driven through the object: logging out, then paying, then
   * spying on a competitor. The payment is ignored and the ad creator opens
   * with the analysis, still showing the demo broker.
   */
  method LogoutThenCounterCampaign(analysis: CompetitorAnalysis)
    returns (shown: User, tab: string, context: Option<AdCreationContext>)
    ensures shown == MockBrokerUser && tab == AdCreatorTab
    ensures context == Some(AdCreationContext(None, Some(analysis)))
  {
    var app := new App();
    app.Logout();
    app.UpdateCredits(-100);
    app.TabChange(SpyTab);
    app.CounterCampaign(analysis);
    shown := app.ShownUser();
    tab := app.activeTab;
    context := app.adCreationContext;
  }
}

=== FILE: dispatch.dfy ===
/**
 * What the `App` component renders for a state (App.tsx:66-87): the layout
 * with the active tab and the effective user, and one conditional page per
 * tab id. Pages are black boxes; a page is modelled by the tag of its
 * component and the part of the state it is given, and by the handlers it
 * is handed.
 */
module Dispatch {
  import opened Types
  import opened Session

  /** A page component together with the session data it receives. */
  datatype View =
    | HomeView
    | AcceleratorView(user: User)
    | DashboardView(campaigns: seq<Campaign>)
    | FinancialView(user: User)
    | IntegrationsView
    | ContractsView(user: User)
    | AdCreatorView(user: User)
    | MarketSpyView
    | ReferralProgramView(user: User)
    | TrainingView(user: User)
    | NewsView(user: User)
    | ChatView

  /** The layout's props and the pages rendered inside it, in source order. */
  datatype Screen = Screen(activeTab: string, user: User, pages: seq<View>)

  /** The twelve tab ids the component has a page for. */
  const TabIds: seq<string> := [
    HomeTab, AcceleratorTab, DashboardTab, FinancialTab, IntegrationsTab, ContractsTab,
    AdCreatorTab, SpyTab, ReferralTab, TrainingTab, NewsTab, ChatTab]

  /** The tab id whose test guards a page. */
  function TabOf(v: View): string
  {
    match v
    case HomeView => HomeTab
    case AcceleratorView(_) => AcceleratorTab
    case DashboardView(_) => DashboardTab
    case FinancialView(_) => FinancialTab
    case IntegrationsView => IntegrationsTab
    case ContractsView(_) => ContractsTab
    case AdCreatorView(_) => AdCreatorTab
    case MarketSpyView => SpyTab
    case ReferralProgramView(_) => ReferralTab
    case TrainingView(_) => TrainingTab
    case NewsView(_) => NewsTab
    case ChatView => ChatTab
  }

  /** A page that is handed the current user. */
  predicate ShowsUser(v: View)
  {
    v.AcceleratorView? || v.FinancialView? || v.ContractsView? || v.AdCreatorView? ||
    v.ReferralProgramView? || v.TrainingView? || v.NewsView?
  }

  /** A page only when `tab` is `id`: one `activeTab === id && <Page/>` line. */
  function When(tab: string, id: string, v: View): seq<View>
  {
    if tab == id then [v] else []
  }

  /**
   * The render of a state: the layout is given the active tab and the
   * effective user, then each page line is evaluated in turn. Which pages
   * that yields is stated by `RenderSelectsOnePage`.
   */
  function Render(s: State): (r: Screen)
    ensures r.activeTab == s.activeTab && r.user == EffectiveUser(s.user)
  {
    var t, u := s.activeTab, EffectiveUser(s.user);
    Screen(t, u,
      When(t, HomeTab, HomeView) +
      When(t, AcceleratorTab, AcceleratorView(u)) +
      When(t, DashboardTab, DashboardView(s.campaigns)) +
      When(t, FinancialTab, FinancialView(u)) +
      When(t, IntegrationsTab, IntegrationsView) +
      When(t, ContractsTab, ContractsView(u)) +
      When(t, AdCreatorTab, AdCreatorView(u)) +
      When(t, SpyTab, MarketSpyView) +
      When(t, ReferralTab, ReferralProgramView(u)) +
      When(t, TrainingTab, TrainingView(u)) +
      When(t, NewsTab, NewsView(u)) +
      When(t, ChatTab, ChatView))
  }

  /** The twelve tab ids are distinct, and every page is guarded by one of them. */
  lemma TabIdsDistinct()
    ensures |TabIds| == 12
    ensures forall i, j :: 0 <= i < j < |TabIds| ==> TabIds[i] != TabIds[j]
    ensures forall v: View :: TabOf(v) in TabIds
  {
  }

  /**
   * The page a tab selects, as one if-else chain, so at most one page by
   * construction. `Render` instead tests the twelve ids one after another.
   */
  function Selected(s: State): Option<View>
  {
    var t, u := s.activeTab, EffectiveUser(s.user);
    if t == HomeTab then Some(HomeView)
    else if t == AcceleratorTab then Some(AcceleratorView(u))
    else if t == DashboardTab then Some(DashboardView(s.campaigns))
    else if t == FinancialTab then Some(FinancialView(u))
    else if t == IntegrationsTab then Some(IntegrationsView)
    else if t == ContractsTab then Some(ContractsView(u))
    else if t == AdCreatorTab then Some(AdCreatorView(u))
    else if t == SpyTab then Some(MarketSpyView)
    else if t == ReferralTab then Some(ReferralProgramView(u))
    else if t == TrainingTab then Some(TrainingView(u))
    else if t == NewsTab then Some(NewsView(u))
    else if t == ChatTab then Some(ChatView)
    else None
  }

  /** The twelve independent page lines render exactly the page the chain selects. */
  lemma RenderIsSelected(s: State)
    ensures Render(s).pages == match Selected(s) case Some(v) => [v] case None => []
  {
  }

  /** A page is selected exactly for the twelve tab ids, and it is the page of that id. */
  lemma SelectedByTabId(s: State)
    ensures Selected(s).Some? <==> s.activeTab in TabIds
    ensures Selected(s).Some? ==> TabOf(Selected(s).value) == s.activeTab
  {
    var t := s.activeTab;
    if t in TabIds {
      var i :| 0 <= i < |TabIds| && TabIds[i] == t;
      assert Selected(s).Some?;
    }
  }

  /**
   * Exactly one page is rendered for each of the twelve tab ids and none for
   * any other string; the page rendered is the one that tab id guards.
   */
  lemma RenderSelectsOnePage(s: State)
    ensures |Render(s).pages| == (if s.activeTab in TabIds then 1 else 0)
    ensures forall v :: v in Render(s).pages ==> TabOf(v) == s.activeTab
  {
    RenderIsSelected(s);
    SelectedByTabId(s);
  }

  /** The selected page is given the effective user, or the campaigns for the dashboard. */
  lemma SelectedPassesSessionData(s: State)
    ensures Selected(s).Some? && ShowsUser(Selected(s).value) ==>
      Selected(s).value.user == EffectiveUser(s.user)
    ensures Selected(s).Some? && Selected(s).value.DashboardView? ==>
      Selected(s).value.campaigns == s.campaigns
  {
  }

  /**
   * The layout and every page that takes a user are given `user ||
   * MOCK_BROKER_USER`; the dashboard is given the campaign list.
   */
  lemma RenderPassesSessionData(s: State)
    ensures Render(s).activeTab == s.activeTab
    ensures Render(s).user == EffectiveUser(s.user)
    ensures forall v :: v in Render(s).pages && ShowsUser(v) ==> v.user == EffectiveUser(s.user)
    ensures forall v :: v in Render(s).pages && v.DashboardView? ==> v.campaigns == s.campaigns
  {
    RenderIsSelected(s);
    SelectedPassesSessionData(s);
    var ps := Render(s).pages;
    assert forall v :: v in ps ==> Selected(s) == Some(v);
  }

  /** With no user signed in, the layout and every page see the demo broker. */
  lemma LoggedOutShowsMockBroker(s: State)
    requires s.user.None?
    ensures Render(s).user == MockBrokerUser
    ensures forall v :: v in Render(s).pages && ShowsUser(v) ==> v.user == MockBrokerUser
  {
    RenderPassesSessionData(s);
  }

  /** No page is given the ad-creation context: rendering does not depend on it. */
  lemma RenderIgnoresContext(s: State, c: Option<AdCreationContext>)
    ensures Render(s.(adCreationContext := c)) == Render(s)
  {
  }

  // ---------------------------------------------------------------------
  // Which handlers the rendered screen hands out
  // ---------------------------------------------------------------------

  /** The handlers a page is given: only ones that belong to that page's tab. */
  predicate Offers(v: View, e: Event)
    ensures Offers(v, e) ==> HandlerTab(e) == Some(TabOf(v))
  {
    match v
    case HomeView => e.Boost?
    case FinancialView(_) => e.UpdateCredits?
    case AdCreatorView(_) => e.CampaignCreated? || e.Cancel?
    case MarketSpyView => e.CounterCampaign?
    case _ => false
  }

  /** An event the rendered screen can raise: the layout's two, or one a page was given. */
  predicate Offered(s: State, e: Event)
  {
    e.TabChange? || e.Logout? ||
    exists i :: 0 <= i < |Render(s).pages| && Offers(Render(s).pages[i], e)
  }

  /** The tab whose page hands out the handler for `e`; none for the layout's handlers. */
  function HandlerTab(e: Event): Option<string>
  {
    match e
    case UpdateCredits(_) => Some(FinancialTab)
    case CounterCampaign(_) => Some(SpyTab)
    case CampaignCreated(_) => Some(AdCreatorTab)
    case Cancel => Some(AdCreatorTab)
    case Boost => Some(HomeTab)
    case _ => None
  }

  /**
   * The screen rendered for a state hands out a page's handler exactly when
   * that page's tab is active; the layout's tab change and logout it always
   * hands out. A handler that a page received in an earlier render can still
   * be called after the page is gone (`UnmountedPageStillPays`).
   */
  lemma OfferedOnlyOnItsTab(s: State, e: Event)
    ensures Offered(s, e) <==> (HandlerTab(e).None? || HandlerTab(e) == Some(s.activeTab))
  {
    RenderSelectsOnePage(s);
    var ps := Render(s).pages;
    if HandlerTab(e).Some? && HandlerTab(e) == Some(s.activeTab) {
      assert |ps| == 1 && TabOf(ps[0]) == s.activeTab;
      assert Offers(ps[0], e);
    }
    if Offered(s, e) && !e.TabChange? && !e.Logout? {
      var i :| 0 <= i < |ps| && Offers(ps[i], e);
      assert ps[i] in ps;
    }
  }

  /**
   * The financial page hands out the credit update only while its tab is
   * active, yet a credit update it kept can still be called after the user
   * has left it: once the ad creator is cancelled and the home tab shows,
   * the current screen no longer offers a credit update, but that call
   * still moves the balance.
   */
  lemma UnmountedPageStillPays(seen: State, amount: int)
    requires seen.activeTab == FinancialTab && seen.user.Some?
    ensures var s := Step(seen, Cancel);
      Offered(seen, UpdateCredits(amount)) && !Offered(s, UpdateCredits(amount)) &&
      StepFrom(seen, s, UpdateCredits(amount)).user ==
        Some(seen.user.value.(credits := seen.user.value.credits + amount))
  {
    var s := Step(seen, Cancel);
    OfferedOnlyOnItsTab(seen, UpdateCredits(amount));
    OfferedOnlyOnItsTab(s, UpdateCredits(amount));
  }
}

=== FILE: session.dfy ===
/**
 * The state of the top-level `App` component (App.tsx:50-64, 69-79) as a
 * value, and each of its handlers as a transition on that value. The class
 * in module AppComponent performs the same transitions in place; this
 * module is what its methods are proved against, and what the lemmas about
 * whole runs of events speak of.
 */
module Session {
  import opened Types

  // The twelve tab ids, each the value of `activeTab` that shows one page.
  const HomeTab: string := "home"
  const AcceleratorTab: string := "accelerator"
  const DashboardTab: string := "dashboard"
  const FinancialTab: string := "financial"
  const IntegrationsTab: string := "integrations"
  const ContractsTab: string := "contracts"
  const AdCreatorTab: string := "superads"
  const SpyTab: string := "spy"
  const ReferralTab: string := "referral"
  const TrainingTab: string := "training"
  const NewsTab: string := "news"
  const ChatTab: string := "chat"

  /** The demo broker installed at start-up and shown whenever no one is signed in. */
  const MockBrokerUser: User := User(
    id := "u1",
    name := "Roberto Corretor",
    email := "roberto@imob.com",
    role := Broker,
    credits := 2500,
    avatarUrl := "https://images.unsplash.com/photo-1560250097-0b93528c311a?ixlib=rb-4.0.3&auto=format&fit=crop&w=256&q=80",
    agencyId := None,
    trustScore := 75,
    trustLevel := Prata,
    performance := Some(Performance(120, 4, Some(45))),
    referralCode := Some("ROBERTO10"),
    partnerEarnings := None,
    partnerTier := None)

  /** The demo broker's fields: the id, role, balance, trust rating and referral code it is mounted with. */
  lemma MockBrokerUserShape()
    ensures MockBrokerUser.id == "u1" && MockBrokerUser.role == Broker
    ensures MockBrokerUser.credits == 2500
    ensures MockBrokerUser.trustScore == 75 && MockBrokerUser.trustLevel == Prata
    ensures MockBrokerUser.referralCode == Some("ROBERTO10")
  {
  }

  /** The four pieces of component state. `user == None` is the `null` user. */
  datatype State = State(
    activeTab: string,
    user: Option<User>,
    campaigns: seq<Campaign>,
    adCreationContext: Option<AdCreationContext>)

  /** One call of a handler the component hands to its layout or pages. */
  datatype Event =
    | UpdateCredits(amount: int)                 // handleUpdateCredits
    | CounterCampaign(analysis: CompetitorAnalysis) // handleCounterCampaign
    | CampaignCreated(campaign: Campaign)        // onCampaignCreated
    | Logout                                     // onLogout
    | TabChange(tab: string)                     // onTabChange
    | Boost                                      // onBoost
    | Cancel                                     // onCancel

  /** The state at mount time. */
  function Initial(): (s: State)
    ensures s.activeTab == HomeTab
    ensures s.user == Some(MockBrokerUser) && s.user.value.credits == 2500
    ensures s.campaigns == [] && s.adCreationContext == None
  {
    State(HomeTab, Some(MockBrokerUser), [], None)
  }

  /**
   * `user || MOCK_BROKER_USER`: a user record is always truthy, so the
   * fallback is taken exactly when there is no user.
   */
  function EffectiveUser(user: Option<User>): (u: User)
    ensures user.Some? ==> u == user.value
    ensures user.None? ==> u == MockBrokerUser
  {
    match user
    case Some(u) => u
    case None => MockBrokerUser
  }

  /**
   * The user after `handleUpdateCredits(amount)`: nothing without a user,
   * otherwise the same user with `amount` added to the balance. There is no
   * lower bound on the result.
   */
  function AdjustCredits(user: Option<User>, amount: int): (r: Option<User>)
    ensures r.None? <==> user.None?
    ensures r.Some? ==> r.value.credits == user.value.credits + amount
    ensures r.Some? ==> SameProfile(r.value, user.value)
  {
    if user.None? then None
    else Some(user.value.(credits := user.value.credits + amount))
  }

  /** The context `handleCounterCampaign(analysis)` installs: no pre-selected property. */
  function CounterCampaignContext(analysis: CompetitorAnalysis): AdCreationContext
  {
    AdCreationContext(None, Some(analysis))
  }

  /**
   * The state after one handler call. Each handler touches only its own
   * part of the state: the user only through a credit update or logout, the
   * list only through creation, the context only through a counter-campaign
   * request, and the tab only through the calls that navigate.
   */
  function Step(s: State, e: Event): (r: State)
    ensures !e.UpdateCredits? && !e.Logout? ==> r.user == s.user
    ensures !e.CampaignCreated? ==> r.campaigns == s.campaigns
    ensures !e.CounterCampaign? ==> r.adCreationContext == s.adCreationContext
    ensures Target(e).Some? ==> r.activeTab == Target(e).value
    ensures Target(e).None? ==> r.activeTab == s.activeTab
  {
    match e
    case UpdateCredits(amount) => s.(user := AdjustCredits(s.user, amount))
    case CounterCampaign(analysis) =>
      s.(adCreationContext := Some(CounterCampaignContext(analysis)), activeTab := AdCreatorTab)
    case CampaignCreated(c) => s.(campaigns := [c] + s.campaigns)
    case Logout => s.(user := None)
    case TabChange(tab) => s.(activeTab := tab)
    case Boost => s.(activeTab := AdCreatorTab)
    case Cancel => s.(activeTab := HomeTab)
  }

  /**
   * The state after the handler calls `events`, first to last, each call
   * seeing the state the previous one left: React has re-rendered between
   * any two calls. A run never brings a user back and adds one campaign per
   * creation.
   */
  function Run(s: State, events: seq<Event>): (r: State)
    ensures r.user.Some? ==> s.user.Some?
    ensures |r.campaigns| == |s.campaigns| + |Created(events)|
    decreases |events|
  {
    if events == [] then s else Run(Step(s, events[0]), events[1..])
  }

  /** The sum of the amounts of the credit updates in `events`. */
  function CreditDelta(events: seq<Event>): int
    decreases |events|
  {
    if events == [] then 0
    else (if events[0].UpdateCredits? then events[0].amount else 0) + CreditDelta(events[1..])
  }

  /** The campaigns created by `events`, in the order they were created. */
  function Created(events: seq<Event>): seq<Campaign>
    decreases |events|
  {
    if events == [] then []
    else (if events[0].CampaignCreated? then [events[0].campaign] else []) + Created(events[1..])
  }

  function Reverse<T>(xs: seq<T>): seq<T>
    decreases |xs|
  {
    if xs == [] then [] else Reverse(xs[1..]) + [xs[0]]
  }

  /** The analysis of the last counter-campaign request in `events`, if any. */
  function LastAnalysis(events: seq<Event>): Option<CompetitorAnalysis>
    decreases |events|
  {
    if events == [] then None
    else match LastAnalysis(events[1..])
      case Some(a) => Some(a)
      case None => if events[0].CounterCampaign? then Some(events[0].analysis) else None
  }

  /** The tab an event switches to, if it navigates at all. */
  function Target(e: Event): Option<string>
  {
    match e
    case CounterCampaign(_) => Some(AdCreatorTab)
    case TabChange(tab) => Some(tab)
    case Boost => Some(AdCreatorTab)
    case Cancel => Some(HomeTab)
    case _ => None
  }

  /** The target of the last navigating event in `events`, if any. */
  function LastTarget(events: seq<Event>): Option<string>
    decreases |events|
  {
    if events == [] then None
    else match LastTarget(events[1..])
      case Some(t) => Some(t)
      case None => Target(events[0])
  }

  // ---------------------------------------------------------------------
  // One handler call
  // ---------------------------------------------------------------------

  /** Without a user a credit update changes no part of the state. */
  lemma UpdateCreditsWithoutUser(s: State, amount: int)
    requires s.user.None?
    ensures Step(s, UpdateCredits(amount)) == s
  {
  }

  /**
   * With a user a credit update adds `amount` to the balance, keeps every
   * other field of the user and every other part of the state.
   */
  lemma UpdateCreditsWithUser(s: State, amount: int)
    requires s.user.Some?
    ensures var r := Step(s, UpdateCredits(amount));
      r.user.Some? && r.user.value.credits == s.user.value.credits + amount &&
      SameProfile(r.user.value, s.user.value) &&
      r.activeTab == s.activeTab && r.campaigns == s.campaigns &&
      r.adCreationContext == s.adCreationContext
  {
  }

  /** There is no floor: taking more than the balance leaves it negative. */
  lemma OverdraftFromInitial()
    ensures var r := Step(Initial(), UpdateCredits(-3000));
      r.user.Some? && r.user.value.credits == -500
  {
  }

  /**
   * A counter-campaign request replaces any context by one that holds only
   * the analysis, opens the ad creator and keeps the user and the campaigns.
   */
  lemma CounterCampaignStep(s: State, analysis: CompetitorAnalysis)
    ensures var r := Step(s, CounterCampaign(analysis));
      r.adCreationContext.Some? &&
      r.adCreationContext.value.competitorAnalysis == Some(analysis) &&
      r.adCreationContext.value.preSelectedProperty == None &&
      r.activeTab == AdCreatorTab && r.user == s.user && r.campaigns == s.campaigns
  {
  }

  /**
   * Creating a campaign puts it first, keeps the older ones behind it in
   * their order, and changes nothing else: no debit, no navigation, the
   * context stays.
   */
  lemma CampaignCreatedStep(s: State, c: Campaign)
    ensures var r := Step(s, CampaignCreated(c));
      |r.campaigns| == |s.campaigns| + 1 && r.campaigns[0] == c &&
      r.campaigns[1..] == s.campaigns &&
      r.user == s.user && r.activeTab == s.activeTab &&
      r.adCreationContext == s.adCreationContext
  {
  }

  /** Logging out drops the user only; tab, campaigns and context stay. */
  lemma LogoutStep(s: State)
    ensures var r := Step(s, Logout);
      r.user == None && EffectiveUser(r.user) == MockBrokerUser &&
      r.activeTab == s.activeTab && r.campaigns == s.campaigns &&
      r.adCreationContext == s.adCreationContext
  {
  }

  /** Boost always opens the ad creator, cancel always goes home, any tab id is accepted. */
  lemma NavigationSteps(s: State, tab: string)
    ensures Step(s, Boost) == s.(activeTab := AdCreatorTab)
    ensures Step(s, Cancel) == s.(activeTab := HomeTab)
    ensures Step(s, TabChange(tab)) == s.(activeTab := tab)
  {
  }

  // ---------------------------------------------------------------------
  // Runs of handler calls
  // ---------------------------------------------------------------------

  /**
   * The user after a run: gone if there was none or the run logs out,
   * otherwise the same user whose balance moved by exactly the sum of the
   * credit updates in the run.
   */
  lemma {:induction false} UserAfterRun(s: State, events: seq<Event>)
    ensures Run(s, events).user ==
      if s.user.None? || Logout in events then None
      else Some(s.user.value.(credits := s.user.value.credits + CreditDelta(events)))
    decreases |events|
  {
    if events != [] {
      var e, rest := events[0], events[1..];
      assert events == [e] + rest;
      UserAfterRun(Step(s, e), rest);
    }
  }

  /** A sequence of credit updates, with a user present, adds the sum of the deltas. */
  lemma CreditsAddUp(s: State, events: seq<Event>)
    requires s.user.Some? && Logout !in events
    ensures Run(s, events).user.Some?
    ensures Run(s, events).user.value.credits == s.user.value.credits + CreditDelta(events)
    ensures SameProfile(Run(s, events).user.value, s.user.value)
  {
    UserAfterRun(s, events);
  }

  /**
   * Once logged out, nobody comes back: every later run keeps the user null,
   * so every view is shown the demo broker and credit updates do nothing.
   */
  lemma LoggedOutForever(s: State, events: seq<Event>)
    ensures Run(s, [Logout] + events).user == None
    ensures EffectiveUser(Run(s, [Logout] + events).user) == MockBrokerUser
  {
    UserAfterRun(s, [Logout] + events);
  }

  lemma {:induction false} ReverseAppend<T>(xs: seq<T>, ys: seq<T>)
    ensures Reverse(xs + ys) == Reverse(ys) + Reverse(xs)
    decreases |xs|
  {
    if xs == [] {
      assert xs + ys == ys;
    } else {
      assert (xs + ys)[1..] == xs[1..] + ys;
      ReverseAppend(xs[1..], ys);
    }
  }

  /**
   * The campaign list after a run: the campaigns the run created, newest
   * first, in front of the ones that were there before.
   */
  lemma {:induction false} CampaignsNewestFirst(s: State, events: seq<Event>)
    ensures Run(s, events).campaigns == Reverse(Created(events)) + s.campaigns
    decreases |events|
  {
    if events != [] {
      var e, rest := events[0], events[1..];
      CampaignsNewestFirst(Step(s, e), rest);
      var head := if e.CampaignCreated? then [e.campaign] else [];
      ReverseAppend(head, Created(rest));
      assert Reverse(head) == head by {
        if head != [] { assert head[1..] == []; }
      }
    }
  }

  /**
   * The context after a run: the one built from the last counter-campaign
   * request in the run, or the old one if there was none. Nothing clears it.
   */
  lemma {:induction false} ContextAfterRun(s: State, events: seq<Event>)
    ensures Run(s, events).adCreationContext ==
      match LastAnalysis(events)
      case Some(a) => Some(CounterCampaignContext(a))
      case None => s.adCreationContext
    decreases |events|
  {
    if events != [] {
      ContextAfterRun(Step(s, events[0]), events[1..]);
    }
  }

  /** The tab after a run: the target of the last navigating event, or the old tab. */
  lemma {:induction false} TabAfterRun(s: State, events: seq<Event>)
    ensures Run(s, events).activeTab ==
      match LastTarget(events)
      case Some(t) => t
      case None => s.activeTab
    decreases |events|
  {
    if events != [] {
      TabAfterRun(Step(s, events[0]), events[1..]);
    }
  }

  /**
   * From start-up, creating a campaign, whatever its budget, leaves the
   * balance at 2500 and the list with that one campaign.
   */
  lemma CreateCampaignFromInitial(c: Campaign)
    ensures Run(Initial(), [CampaignCreated(c)]).user == Some(MockBrokerUser)
    ensures Run(Initial(), [CampaignCreated(c)]).campaigns == [c]
  {
  }

  // ---------------------------------------------------------------------
  // Handlers whose closure saw an older state
  // ---------------------------------------------------------------------

  /**
   * A handler call made through the closure of the render whose state was
   * `seen`, applied to the current state `s`. That is a handler kept from an
   * earlier render, or the second of two calls made in one event before
   * React re-renders. `handleUpdateCredits` reads the user it closed over and
   * `onCampaignCreated` the list it closed over; the other handlers read no
   * state and behave as `Step` whatever `seen` is. `Step` is the case
   * `seen == s`.
   */
  function StepFrom(seen: State, s: State, e: Event): (r: State)
    ensures seen == s ==> r == Step(s, e)
    ensures !e.UpdateCredits? && !e.CampaignCreated? ==> r == Step(s, e)
  {
    match e
    case UpdateCredits(amount) =>
      if seen.user.None? then s
      else s.(user := Some(seen.user.value.(credits := seen.user.value.credits + amount)))
    case CampaignCreated(c) => s.(campaigns := [c] + seen.campaigns)
    case _ => Step(s, e)
  }

  /**
   * A credit update whose closure saw the state before a logout brings the
   * logged-out user back, with the balance it saw plus `amount`. This happens
   * to a handler kept from an earlier render, and equally to a credit update
   * made in the same event as the logout, before React re-renders.
   */
  lemma StaleCreditUpdateRevivesUser(seen: State, amount: int)
    requires seen.user.Some?
    ensures var r := StepFrom(seen, Step(seen, Logout), UpdateCredits(amount));
      r.user.Some? && r.user.value.credits == seen.user.value.credits + amount &&
      SameProfile(r.user.value, seen.user.value)
  {
  }

  /**
   * A credit update whose closure saw an older state loses the updates made
   * since. So of two credit updates made in one event, only the second is
   * kept.
   */
  lemma StaleCreditUpdateLosesNewer(seen: State, first: int, second: int)
    requires seen.user.Some?
    ensures var r := StepFrom(seen, Step(seen, UpdateCredits(first)), UpdateCredits(second));
      r.user.Some? && r.user.value.credits == seen.user.value.credits + second
  {
  }

  /**
   * A campaign created through a closure that saw an older list drops the
   * campaigns created since: the list does not grow. So of two campaigns
   * created in one event, only the second is kept.
   */
  lemma StaleCampaignCreatedDropsNewer(seen: State, first: Campaign, second: Campaign)
    ensures var s := Step(seen, CampaignCreated(first));
      StepFrom(seen, s, CampaignCreated(second)).campaigns == [second] + seen.campaigns &&
      |StepFrom(seen, s, CampaignCreated(second)).campaigns| == |s.campaigns|
  {
  }
}

=== FILE: types.dfy ===
/**
 * The record shapes the application's top-level component works with
 * (types.ts). Only the fields the session state machine touches carry
 * meaning here (`User.credits`, the campaign record as a whole, the two
 * optional parts of the ad-creation context); the others are kept so that
 * "every other field is unchanged" has something to say. Fields that hold
 * fractional numbers in the source are not modelled; every other `number`
 * field is an `int`.
 */
module Types {

  /** A value that may be absent: `T | null`, `T | undefined` or an optional field. */
  datatype Option<T> = None | Some(value: T)

  datatype UserRole = Broker | Agency | Buyer | Influencer

  datatype TrustLevel = Bronze | Prata | Ouro | Diamante

  datatype PartnerTier = Iniciante | Embaixador | Lenda

  /** A user's sales figures; the fractional `conversionRate` is left out. */
  datatype Performance = Performance(leads: int, sales: int, avgCycleDays: Option<int>)

  /** The signed-in user. `credits` is the only field the session changes. */
  datatype User = User(
    id: string,
    name: string,
    email: string,
    role: UserRole,
    credits: int,
    avatarUrl: string,
    agencyId: Option<string>,
    trustScore: int,
    trustLevel: TrustLevel,
    performance: Option<Performance>,
    referralCode: Option<string>,
    partnerEarnings: Option<int>,
    partnerTier: Option<PartnerTier>)

  /** Two users agree on everything except, possibly, their credit balance. */
  predicate SameProfile(a: User, b: User)
  {
    a.(credits := 0) == b.(credits := 0)
  }

  datatype CampaignChannel = Meta | Google | TikTok | Email | WhatsApp | LinkedIn | Automation

  datatype CampaignStatus = Draft | Scheduled | Sending | Active | Completed | Paused | Reactivation

  datatype PaymentSource = BrokerWallet | AgencyWallet

  /**
   * An advertising campaign. The session never looks inside it: it is
   * stored and listed as a whole. The fractional `openRate` and
   * `responseRate` are left out.
   */
  datatype Campaign = Campaign(
    id: string,
    propertyId: string,
    platform: CampaignChannel,
    status: CampaignStatus,
    budget: int,
    spent: int,
    impressions: int,
    clicks: int,
    leads: int,
    adCopy: Option<string>,
    strategyContext: Option<string>,
    paymentSource: PaymentSource,
    ownerId: string,
    audienceSize: Option<int>,
    scheduledDate: Option<string>)

  datatype ListingType = Sale | Rent | Vacation

  /**
   * A listed property. The fractional `price` and the optional `period`,
   * `isPremium`, `isDraft` and `integrations` are left out.
   */
  datatype Property = Property(
    id: string,
    title: string,
    description: string,
    location: string,
    kind: string,
    listingType: ListingType,
    bedrooms: int,
    bathrooms: int,
    area: int,
    imageUrl: string,
    features: seq<string>)

  /** The market-spy result that a counter-campaign is built from. */
  datatype CompetitorAnalysis = CompetitorAnalysis(
    competitorName: string,
    weaknesses: seq<string>,
    opportunities: seq<string>,
    suggestedAction: string)

  /** What one page hands to the ad creator: both parts are optional. */
  datatype AdCreationContext = AdCreationContext(
    preSelectedProperty: Option<Property>,
    competitorAnalysis: Option<CompetitorAnalysis>)
}
